=== FILE: README.md ===
# Meta-collector storage binding and pipeline assembly, modelled in Dafny

This project models the core of DKPro TC's meta-collection step. The step
covers four jobs:

- Give every meta collector's storage parameters a deterministic location.
  An extractor's collectors get `<discriminator>-<preferred value>`. The
  mode-level context collectors keep their preferred value unchanged.
- Reject collectors that are not primitive or that are not meta collectors.
- Assemble the context collectors that the feature mode activates into one
  aggregate. When operative views are set, the aggregate fans out over them.
- Choose which files feed the reader.

It also models two smaller parts:

- The line-per-document test reader, as a state machine over the input lines.
  It keeps a one-line look-ahead buffer and a 32-bit document index. Each
  document's label is that index divided by two.
- The feature descriptor, whose discriminator name is fixed at construction.

Modules:

- `JavaLang` (`java_lang.dfy`) holds the Java semantics the model depends on:
  - null references as `Option`;
  - the 32-bit `int`, with `++` wrapping around (`Wrap`, `Increment`);
  - `int` division, which truncates toward zero (`Half`);
  - `Integer.toString`, with a parser that reads it back.
- `TcFeatures` (`tc_feature.dfy`) models the feature descriptor: its
  constructor, `setConfig` and the two identity getters.
- `MetaInfoTask` (`meta_info_task.dfy`) models:
  - `configureStorageLocations`;
  - the loop over the extractors;
  - the mode-level context collectors;
  - the aggregate;
  - `getAnalysisEngineDescription`, `setOperativeViews` and
    `getCollectionReaderDescription`.
- `LineInstanceReader` (`line_instance_reader.dfy`) models `initialize`,
  `hasNext`, `getNext`, `getProgress` and `getTextClassificationOutcome`. It
  also models the framework's `hasNext`/`getNext` loop that drives the reader.

Reflection is replaced by tagged unions:

- `CollectorClass` records what `Class.forName`, `isAssignableFrom` and
  `newInstance` would find for a collector:
  - `ClassNotFound`;
  - `NotMetaCollector`;
  - `NotInstantiable`;
  - `MetaCollectorClass` with its `getParameterKeyPairs` map.
- `ExtractorClass` does the same for an extractor:
  - `ExtractorClassNotFound`;
  - `Independent` (not `MetaDependent`);
  - `DependentNotInstantiable`;
  - `MetaDependent` with its declared collectors.

The model checks these in the code's order:

1. primitive;
2. class lookup;
3. meta-collector check;
4. instantiation.

A failed lookup or instantiation becomes `ResolutionFailure`, the exception
the catch at line 191 wraps. The two `IllegalArgumentException`s stay
distinct errors (`CollectorNotPrimitive`, `NotAMetaCollector`), because
that catch does not wrap them. A null feature mode fails with
`FeatureModeNull`, because `featureMode.equals` throws on null.

Two behaviours of the code may surprise a reader; the model follows the code.

- Only a null extractor list is rejected. The exception message at
  MetaInfoTask.java:146-147 ("No feature extractors have been added to the
  experiment") might suggest that an empty list is rejected too. It is not:
  an empty list passes and builds an aggregate (`EmptyExtractorListAccepted`).
- Collectors declared by meta-dependent extractors are configured but never
  added to the collector list. The aggregate therefore holds only the
  mode-level context collectors (`ModeGatesAggregate`,
  `AggregateIgnoresExtractors`). Take two extractors `A` and `B` in document
  mode, where only `A` declares a `vocab` collector. The aggregate is empty.
  `A`'s collector is bound to `A-vocab` only inside the discarded per-extractor
  result (`DocumentModeScenario`). The model returns those per-extractor
  results in `extractorBindings` so that the binding can be stated.

Storage locations are injective in the extractor name for a fixed preferred
value (`StorageLocationInjective`). They are not injective across different
preferred values. Extractor `ngram-1` with value `vocab` and extractor `ngram`
with value `1-vocab` share a location. A named location can also equal an
unnamed one. `StorageLocationsMeetAcrossPreferredValues` shows both
collisions.

The feature-mode constants `unit` and `sequence` are the mode names of the
system. `Constants.java` is not part of this model.

## Model

| member | source | states |
|---|---|---|
| `JavaLang.Increment` | de.tudarmstadt.ukp.dkpro.tc.testing-gpl/src/main/groovy/de/tudarmstadt/ukp/dkpro/tc/testing/io/LineInstanceReader.java:108 | `currentIndex++` is two's-complement addition: the result is the mathematical successor reduced into the 32-bit range |
| `JavaLang.Half` | de.tudarmstadt.ukp.dkpro.tc.testing-gpl/src/main/groovy/de/tudarmstadt/ukp/dkpro/tc/testing/io/LineInstanceReader.java:128 | `currentIndex / 2` truncates toward zero: the remainder lies in [0,1] for non-negative indexes and in [-1,0] for negative ones |
| `JavaLang.IntToString` | de.tudarmstadt.ukp.dkpro.tc.testing-gpl/src/main/groovy/de/tudarmstadt/ukp/dkpro/tc/testing/io/LineInstanceReader.java:99-102 | `Integer.toString` gives an optional minus sign followed by digits, and parsing that string gives back the number, so distinct indexes give distinct ids. The string is canonical: it has no leading zero, and it is never a negative zero |
| `JavaLang.IntToStringInjective` | de.tudarmstadt.ukp.dkpro.tc.testing-gpl/src/main/groovy/de/tudarmstadt/ukp/dkpro/tc/testing/io/LineInstanceReader.java:99-102 | two indexes with the same decimal id are equal |
| `TcFeatures.NewFeature` | dkpro-tc-api-features/src/main/java/org/dkpro/tc/api/features/TcFeature.java:31-35 | the constructed feature's discriminator value is the name passed in, its feature name is the full feature name passed in, and no config is set yet |
| `TcFeatures.SetConfig` | dkpro-tc-api-features/src/main/java/org/dkpro/tc/api/features/TcFeature.java:37-39 | the new config replaces the old one; the discriminator value and the feature name are unchanged |
| `TcFeatures.IdentityFixedForLifetime` | dkpro-tc-api-features/src/main/java/org/dkpro/tc/api/features/TcFeature.java:27-39 | after any sequence of `setConfig` calls the identity is unchanged and the config is the last one set |
| `TcFeatures.ConstructedIdentityFixed` | dkpro-tc-api-features/src/main/java/org/dkpro/tc/api/features/TcFeature.java:31-53 | from construction on, the discriminator value and the feature name always return the constructor's arguments, whatever configs are set later |
| `MetaInfoTask.StorageLocation` | dkpro-tc-core/src/main/java/de/tudarmstadt/ukp/dkpro/tc/core/task/MetaInfoTask.java:124-135 | without an extractor name the location is the preferred value; with one it is the name, then a dash, then the preferred value |
| `MetaInfoTask.StorageLocationInjective` | dkpro-tc-core/src/main/java/de/tudarmstadt/ukp/dkpro/tc/core/task/MetaInfoTask.java:127-128 | for a fixed preferred value, two locations are equal exactly when the extractor names are equal, a null name included. The location for a null name is just the preferred value, so it is shorter than any named location |
| `MetaInfoTask.StorageLocationsMeetAcrossPreferredValues` | dkpro-tc-core/src/main/java/de/tudarmstadt/ukp/dkpro/tc/core/task/MetaInfoTask.java:124-135 | across different preferred values the naming can collide: a dash in a name, or a named location against an unnamed one |
| `MetaInfoTask.ConfigureStorageLocations` | dkpro-tc-core/src/main/java/de/tudarmstadt/ukp/dkpro/tc/core/task/MetaInfoTask.java:102-137 | it fails exactly for a non-primitive description (checked first), a class that is not found or not instantiable, or a class that is not a meta collector. Otherwise every declared storage parameter is set to its location, every other parameter and every other field is unchanged, and no parameter is added beyond the declared ones |
| `MetaInfoTask.ConfigureAll` | dkpro-tc-core/src/main/java/de/tudarmstadt/ukp/dkpro/tc/core/task/MetaInfoTask.java:186-188 | the declared collectors are configured in order. The run succeeds iff every collector is configurable, and then each output is its input bound under the extractor's name. On failure, the error is that of the first collector that is not configurable, and every collector before it is configurable |
| `MetaInfoTask.ConfigureExtractor` | dkpro-tc-core/src/main/java/de/tudarmstadt/ukp/dkpro/tc/core/task/MetaInfoTask.java:174-189 | an extractor that is not meta-dependent is skipped with no bindings. An unresolvable one fails with a resolution error. A meta-dependent one binds each declared collector under its discriminator value, and fails if any of them is invalid. That failure carries the error of the first invalid collector, so a non-primitive or non-MetaCollector class surfaces unwrapped (lines 186-192) |
| `MetaInfoTask.ConfigureExtractors` | dkpro-tc-core/src/main/java/de/tudarmstadt/ukp/dkpro/tc/core/task/MetaInfoTask.java:174-193 | the loop over the extractors succeeds iff every extractor does, and then yields one binding list per extractor, in order. On failure, the error is that of the first failing extractor, and every extractor before it succeeds |
| `MetaInfoTask.ModeCollectors` | dkpro-tc-core/src/main/java/de/tudarmstadt/ukp/dkpro/tc/core/task/MetaInfoTask.java:159-171 | unit mode gives exactly the unit-context collector bound with no name, and sequence mode exactly the sequence-context collector. Any other mode gives none, and there is never more than one. When the mode's collector cannot be configured, the error is that collector's own, so a non-primitive or non-MetaCollector class surfaces unwrapped while a lookup failure is wrapped (lines 191-192) |
| `MetaInfoTask.Aggregate` | dkpro-tc-core/src/main/java/de/tudarmstadt/ukp/dkpro/tc/core/task/MetaInfoTask.java:199-211 | the aggregate has one entry per collector without views, and collectors × views entries with views |
| `MetaInfoTask.AggregateWithoutViews` | dkpro-tc-core/src/main/java/de/tudarmstadt/ukp/dkpro/tc/core/task/MetaInfoTask.java:207-209 | without views, entry `i` is collector `i` on the default view |
| `MetaInfoTask.AggregateWithViews` | dkpro-tc-core/src/main/java/de/tudarmstadt/ukp/dkpro/tc/core/task/MetaInfoTask.java:201-206 | with views, entry `i·|views| + j` is collector `i` with the default sofa mapped to view `j` (collector-major order) |
| `MetaInfoTask.AnalysisEngineDescription` | dkpro-tc-core/src/main/java/de/tudarmstadt/ukp/dkpro/tc/core/task/MetaInfoTask.java:140-212 | a null extractor list fails before anything else. Next, a null feature mode fails with its own error. Then, in unit or sequence mode, a context collector that cannot be configured fails with that collector's error. Any other mode adds no collector and does not fail. After that, a failing extractor phase gives the error of the first failing extractor. The call succeeds exactly when the list and the mode are set, the mode's context collector (if any) configures, and every extractor configures. On success the meta folder was requested read-only, and there is one binding list per extractor, each the result of configuring that extractor |
| `MetaInfoTask.SetOperativeViews` | dkpro-tc-core/src/main/java/de/tudarmstadt/ukp/dkpro/tc/core/task/MetaInfoTask.java:217-220 | the views are replaced and every other setting of the task is unchanged |
| `MetaInfoTask.CollectionReaderInput` | dkpro-tc-core/src/main/java/de/tudarmstadt/ukp/dkpro/tc/core/task/MetaInfoTask.java:85-100 | the reader reads every `.bin` file under the read-only input folder exactly when the root or the training files are null, and otherwise exactly the training files |
| `MetaInfoTask.ReaderIgnoresFilesRoot` | dkpro-tc-core/src/main/java/de/tudarmstadt/ukp/dkpro/tc/core/task/MetaInfoTask.java:89-99 | only whether the root is set matters, not its value |
| `MetaInfoTask.ModeGatesAggregate` | dkpro-tc-core/src/main/java/de/tudarmstadt/ukp/dkpro/tc/core/task/MetaInfoTask.java:157-211 | on success the aggregate is empty outside unit and sequence mode. Without views it holds exactly one unit-context (or sequence-context) collector bound with no name |
| `MetaInfoTask.AggregateIgnoresExtractors` | dkpro-tc-core/src/main/java/de/tudarmstadt/ukp/dkpro/tc/core/task/MetaInfoTask.java:173-211 | replacing the extractors does not change the aggregate, because per-extractor collectors are never appended to it |
| `MetaInfoTask.EmptyExtractorListAccepted` | dkpro-tc-core/src/main/java/de/tudarmstadt/ukp/dkpro/tc/core/task/MetaInfoTask.java:144-157 | an empty, non-null extractor list is not rejected: assembly succeeds with no bindings when the mode's context collector is valid |
| `MetaInfoTask.InvalidDeclaredCollectorFails` | dkpro-tc-core/src/main/java/de/tudarmstadt/ukp/dkpro/tc/core/task/MetaInfoTask.java:183-188 | one invalid collector declared by any meta-dependent extractor fails the whole assembly, whatever surrounds it |
| `MetaInfoTask.UnresolvableExtractorFails` | dkpro-tc-core/src/main/java/de/tudarmstadt/ukp/dkpro/tc/core/task/MetaInfoTask.java:174-193 | an extractor class that cannot be found or instantiated fails the assembly |
| `MetaInfoTask.OperativeViewsFanOut` | dkpro-tc-core/src/main/java/de/tudarmstadt/ukp/dkpro/tc/core/task/MetaInfoTask.java:199-220 | after `setOperativeViews(views)` the aggregate holds each context collector once per view, collector-major: collectors × views entries |
| `MetaInfoTask.ConfigDoesNotAffectBindings` | dkpro-tc-core/src/main/java/de/tudarmstadt/ukp/dkpro/tc/core/task/MetaInfoTask.java:187 | setting a descriptor's config does not change the locations its collectors are bound to |
| `MetaInfoTask.DocumentModeScenario` | dkpro-tc-core/src/main/java/de/tudarmstadt/ukp/dkpro/tc/core/task/MetaInfoTask.java:140-212 | extractors `A` (declaring `vocab`) and `B` in document mode: `A`'s collector is bound to `A-vocab`, `B` binds nothing, and the aggregate is empty |
| `LineInstanceReader.Initialize` | de.tudarmstadt.ukp.dkpro.tc.testing-gpl/src/main/groovy/de/tudarmstadt/ukp/dkpro/tc/testing/io/LineInstanceReader.java:28-75 | after `initialize` the index is 0, the whole input is pending, and an unset language parameter means "en" |
| `LineInstanceReader.HasNext` | de.tudarmstadt.ukp.dkpro.tc.testing-gpl/src/main/groovy/de/tudarmstadt/ukp/dkpro/tc/testing/io/LineInstanceReader.java:77-86 | `hasNext` is true iff a line is buffered afterwards, iff any line is pending. No line is lost or reordered, the buffered line is the first pending one, and nothing is read when a line is already buffered |
| `LineInstanceReader.HasNextIdempotent` | de.tudarmstadt.ukp.dkpro.tc.testing-gpl/src/main/groovy/de/tudarmstadt/ukp/dkpro/tc/testing/io/LineInstanceReader.java:81-85 | a second `hasNext` without `getNext` consumes nothing and gives the same answer |
| `LineInstanceReader.GetNext` | de.tudarmstadt.ukp.dkpro.tc.testing-gpl/src/main/groovy/de/tudarmstadt/ukp/dkpro/tc/testing/io/LineInstanceReader.java:88-112 | the document text is the buffered line, and title, id and collection id are the decimal index. The URI is the source location and the outcome is the index halved, computed before the index moves. Afterwards the index is one more (32-bit) and the buffer is empty |
| `LineInstanceReader.GetNextConsumesOneLine` | de.tudarmstadt.ukp.dkpro.tc.testing-gpl/src/main/groovy/de/tudarmstadt/ukp/dkpro/tc/testing/io/LineInstanceReader.java:96-111 | after a successful `hasNext`, `getNext` turns exactly the first pending line into the document and leaves the rest pending |
| `LineInstanceReader.GetProgress` | de.tudarmstadt.ukp.dkpro.tc.testing-gpl/src/main/groovy/de/tudarmstadt/ukp/dkpro/tc/testing/io/LineInstanceReader.java:119-122 | completed and total are both the current index, counted in entities |
| `LineInstanceReader.TextClassificationOutcome` | de.tudarmstadt.ukp.dkpro.tc.testing-gpl/src/main/groovy/de/tudarmstadt/ukp/dkpro/tc/testing/io/LineInstanceReader.java:124-129 | the label is a decimal numeral `q`, and `2q` lies within one of the index on the side of zero. That is the quotient of `currentIndex / 2` truncated toward zero, for negative (wrapped) indexes too. The numeral is canonical, as `Integer.toString` writes it: no leading zero and no negative zero |
| `LineInstanceReader.OutcomesComeInPairs` | de.tudarmstadt.ukp.dkpro.tc.testing-gpl/src/main/groovy/de/tudarmstadt/ukp/dkpro/tc/testing/io/LineInstanceReader.java:124-129 | `getTextClassificationOutcome` at index `2k` and at index `2k+1` gives the same label `k`, and indexes of different pairs get different labels |
| `LineInstanceReader.ReadSoFarStep` | de.tudarmstadt.ukp.dkpro.tc.testing-gpl/src/main/groovy/de/tudarmstadt/ukp/dkpro/tc/testing/io/LineInstanceReader.java:81-111 | one `getNext` followed by the next `hasNext` appends exactly the document of the next line and shortens what is pending |
| `LineInstanceReader.ReadToExhaustion` | de.tudarmstadt.ukp.dkpro.tc.testing-gpl/src/main/groovy/de/tudarmstadt/ukp/dkpro/tc/testing/io/LineInstanceReader.java:77-122 | reading `n` lines to exhaustion yields exactly `n` documents in input order. Document `i` carries line `i`, id `i` and label `i/2` on the 32-bit index, with the source location and the language. At the end nothing is pending and progress reports `n` (wrapped to 32 bits). Below 2^31 lines the index never wraps: document `i` has id `i` and label `i / 2`, and progress reports exactly `n` |
| `LineInstanceReader.DocumentWithoutWrapAround` | de.tudarmstadt.ukp.dkpro.tc.testing-gpl/src/main/groovy/de/tudarmstadt/ukp/dkpro/tc/testing/io/LineInstanceReader.java:99-108 | for an index below 2^31, a document read at that index has that index as id, title and collection id, and its label is the index halved |

## Left out

- The UIMA and uimaFIT machinery is left out:
  - `createEngineDescription`, `AggregateBuilder`, `ConfigurationParameterFactory` and sofa mapping are foreign library code. Descriptions are records, and the aggregate is a sequence of (collector, optional view) entries.
  - `createAggregateDescription` is not modelled beyond that sequence.
- Reflection is replaced by capability tags: `Class.forName`, `isAssignableFrom` and `newInstance`. So is the wrapping of reflective exceptions into `ResourceInitializationException`; the model keeps only a `ResolutionFailure` outcome.
- The extractor list holds `DynamicDiscriminableFunctionBase` closures (MetaInfoTask.java:73). The model uses a `TcFeature` descriptor in their place: its discriminator value is the one read at line 187, and each extractor comes with its descriptor and class already resolved.
- Resolving the closures (`getActualValue`, lines 151-154) is left out. `DynamicDiscriminableFunctionBase` is not part of this model. The model assumes `getActualValue` has no side effects; the code does not use the resolved list afterwards.
- `ConfigureStorageLocations`: the Java method changes the description in place (lines 130 and 134). The model returns a new description instead. If two extractors share one description object, the last configure call wins in Java. The model does not represent that sharing.
- Storage-service and file-system access is left out: `getStorageLocation`, `getFolder`, `FileUtils.listFiles` and `BinaryCasReader`. The model keeps only which folder is requested, in which access mode, and which file set is chosen.
- Running the aggregate over a corpus is left out. The code only returns a description.
- The unit- and sequence-context collector classes are not part of this model. Their descriptions are inputs (`ContextCollectors`).
- A `ClassCastException` from a discriminator that is not a string is left out. So are null elements in the extractor list.
- `StorageLocation`: a null preferred value is not modelled. Java would concatenate it as the text "null". Parameter-key maps hold strings.
- The reader's I/O is left out: URL resolution, the GZIP and encoding stream choice, I/O exceptions and `close`. The input is the sequence of lines `readLine` would return.
- `TcFeatures`: the abstract `getActualValue` is left out, because subclasses implement it. Config values of type `Object` are represented by strings.

=== FILE: java_lang.dfy ===
/** The few pieces of Java semantics the rest of the model depends on:
    nullable references, the 32-bit `int` with its wrap-around on `++`,
    `int` division (which truncates toward zero) and `Integer.toString`. */
module JavaLang {

  /** A nullable Java reference: `None` is `null`. */
  datatype Option<+T> = None | Some(value: T) {
    /** The value, or `default` in place of `null`. */
    function GetOr(default: T): T {
      if Some? then value else default
    }
  }

  const INT_MIN: int := -0x8000_0000
  const INT_MAX: int := 0x7fff_ffff
  const INT_RANGE: int := 0x1_0000_0000

  /** A value of Java's 32-bit two's-complement `int`. */
  type JInt = x: int | INT_MIN <= x <= INT_MAX

  /** The `int` that the mathematical integer `v` becomes in two's complement. */
  function Wrap(v: int): (r: JInt)
  {
    (v - INT_MIN) % INT_RANGE + INT_MIN
  }

  /** If `a == d * q + r` with `0 <= r < d`, then `r` is `a % d` and `q` is `a / d`. */
  lemma DivModUnique(a: int, d: int, q: int, r: int)
    requires d > 0 && 0 <= r < d && a == d * q + r
    ensures a % d == r && a / d == q
  {
    var q' := a / d;
    var r' := a % d;
    assert d * q' + r' == d * q + r;
    assert d * (q' - q) == r - r';
    SmallMultipleIsZero(d, q' - q);
  }

  /** A multiple of `d` strictly between `-d` and `d` is zero. */
  lemma SmallMultipleIsZero(d: int, k: int)
    requires d > 0 && -d < d * k < d
    ensures k == 0
  {
  }

  /** Wrapping leaves every value already in range unchanged. */
  lemma WrapInRange(v: int)
    requires INT_MIN <= v <= INT_MAX
    ensures Wrap(v) == v
  {
    DivModUnique(v - INT_MIN, INT_RANGE, 0, v - INT_MIN);
  }

  /** Wrapping is periodic: adding one before or after wrapping agrees. */
  lemma WrapSucc(v: int)
    ensures Wrap(Wrap(v) + 1) == Wrap(v + 1)
  {
    var a := v - INT_MIN;
    var q := a / INT_RANGE;
    var r := a % INT_RANGE;
    assert a == INT_RANGE * q + r;
    if r + 1 < INT_RANGE {
      DivModUnique(r + 1, INT_RANGE, 0, r + 1);
      DivModUnique(a + 1, INT_RANGE, q, r + 1);
    } else {
      DivModUnique(r + 1, INT_RANGE, 1, 0);
      DivModUnique(a + 1, INT_RANGE, q + 1, 0);
    }
  }

  /** Java's `x++` on an `int`: the largest value steps to the smallest. */
  function Increment(x: JInt): (r: JInt)
    ensures r == Wrap(x + 1)
  {
    if x == INT_MAX then
      DivModUnique(INT_RANGE, INT_RANGE, 1, 0);
      INT_MIN
    else
      WrapInRange(x + 1);
      x + 1
  }

  /** Java's `a / 2` on an `int`: the quotient is truncated toward zero, so
      the remainder `a - 2 * q` carries the sign of `a`. */
  function Half(a: JInt): (q: JInt)
    ensures a >= 0 ==> 0 <= a - 2 * q <= 1
    ensures a < 0 ==> -1 <= a - 2 * q <= 0
  {
    if a >= 0 then a / 2 else -((-(a as int)) / 2)
  }

  predicate IsDigit(c: char) {
    '0' <= c <= '9'
  }

  predicate AllDigits(s: string) {
    forall i :: 0 <= i < |s| ==> IsDigit(s[i])
  }

  function DigitChar(d: nat): (c: char)
    requires d < 10
    ensures IsDigit(c)
  {
    (('0' as int) + d) as char
  }

  function DigitValue(c: char): (d: nat)
    requires IsDigit(c)
    ensures d < 10
  {
    (c as int) - ('0' as int)
  }

  /** The decimal digits of `n`, most significant first, with no leading zero. */
  function Digits(n: nat): (s: string)
    ensures |s| >= 1 && AllDigits(s)
    ensures s[0] == '0' ==> n == 0
    decreases n
  {
    if n < 10 then [DigitChar(n)] else Digits(n / 10) + [DigitChar(n % 10)]
  }

  /** The number a string of decimal digits denotes. */
  function DigitsValue(s: string): nat
    requires AllDigits(s)
    decreases |s|
  {
    if s == [] then 0 else DigitsValue(s[..|s| - 1]) * 10 + DigitValue(s[|s| - 1])
  }

  lemma {:induction false} DigitsRoundTrip(n: nat)
    ensures DigitsValue(Digits(n)) == n
    decreases n
  {
    if n >= 10 {
      var prefix := Digits(n / 10);
      var s := prefix + [DigitChar(n % 10)];
      assert s[..|s| - 1] == prefix;
      DigitsRoundTrip(n / 10);
    }
  }

  /** The shape `Integer.toString` produces: an optional minus sign, then digits. */
  predicate IsDecimal(s: string) {
    if |s| > 0 && s[0] == '-' then |s| >= 2 && AllDigits(s[1..]) else |s| >= 1 && AllDigits(s)
  }

  /** Reads back a decimal numeral (the inverse of `IntToString`). */
  function ParseDecimal(s: string): int
    requires IsDecimal(s)
  {
    if |s| > 0 && s[0] == '-' then -(DigitsValue(s[1..]) as int) else DigitsValue(s)
  }

  /** Java's `Integer.toString(n)`: reading the numeral back yields `n`, and
      the numeral is canonical (no leading zero, no negative zero). */
  function IntToString(n: int): (s: string)
    ensures IsDecimal(s) && ParseDecimal(s) == n
    ensures s[0] == '0' ==> s == "0"
    ensures s[0] == '-' ==> s[1] != '0'
  {
    if n < 0 then
      var s := "-" + Digits(-n);
      assert s[1..] == Digits(-n);
      DigitsRoundTrip(-n);
      s
    else
      DigitsRoundTrip(n);
      Digits(n)
  }

  /** Distinct numbers have distinct decimal strings. */
  lemma IntToStringInjective(a: int, b: int)
    requires IntToString(a) == IntToString(b)
    ensures a == b
  {
  }
}

=== FILE: line_instance_reader.dfy ===
/** A collection reader that turns every line of its input into one document.
    The outcome label of a document is its index divided by two, so documents
    come in pairs that share a label. The input is the sequence of lines the
    buffered reader would deliver. */
module LineInstanceReader {
  import opened JavaLang

  const DEFAULT_LANGUAGE: string := "en"
  /** The unit in which progress is reported. */
  const ENTITIES: string := "entities"

  /** The reader's state after `initialize`: the lines not yet read from the
      stream, the one-line look-ahead buffer, and the index of the next document. */
  datatype Reader = Reader(
    unread: seq<string>,
    nextLine: Option<string>,
    currentIndex: JInt,
    sourceLocation: string,
    language: Option<string>)

  /** The document a `getNext` call fills in. `None` stands for an unset or
      null value. */
  datatype Document = Document(
    text: Option<string>,
    language: Option<string>,
    title: string,
    uri: string,
    id: string,
    collectionId: string,
    outcome: string)

  datatype Progress = Progress(completed: int, total: int, unit: string)

  /** The outcome of `hasNext`: the reader afterwards, and the answer. */
  datatype Polled = Polled(reader: Reader, more: bool)

  /** The outcome of `getNext`: the reader afterwards, and the document filled in. */
  datatype Fetched = Fetched(reader: Reader, doc: Document)

  /** Every line the reader has yet to deliver, the buffered one first. */
  function Pending(r: Reader): seq<string> {
    (if r.nextLine.Some? then [r.nextLine.value] else []) + r.unread
  }

  /** `initialize` over an input stream, with the language parameter as given
      (or not) by the configuration. */
  function Initialize(input: seq<string>, sourceLocation: string, languageParam: Option<string>): (r: Reader)
    ensures r.currentIndex == 0
    ensures Pending(r) == input
    ensures r.language.Some?
    ensures languageParam.None? ==> r.language == Some(DEFAULT_LANGUAGE)
    ensures languageParam.Some? ==> r.language == languageParam
  {
    Reader(input, None, 0, sourceLocation, Some(languageParam.GetOr(DEFAULT_LANGUAGE)))
  }

  /** `hasNext`: fills the buffer from the stream only when it is empty, and
      answers whether a line is buffered. No line is lost or reordered. */
  function HasNext(r: Reader): (res: Polled)
    ensures res.more <==> res.reader.nextLine.Some?
    ensures res.more <==> Pending(r) != []
    ensures Pending(res.reader) == Pending(r)
    ensures res.reader.nextLine.Some? ==> res.reader.nextLine.value == Pending(r)[0]
    ensures r.nextLine.Some? ==> res.reader == r
    ensures res.reader.currentIndex == r.currentIndex
    ensures res.reader.sourceLocation == r.sourceLocation && res.reader.language == r.language
  {
    if r.nextLine.None? && r.unread != [] then
      Polled(r.(nextLine := Some(r.unread[0]), unread := r.unread[1..]), true)
    else
      Polled(r, r.nextLine.Some?)
  }

  /** Asking again without an intervening `getNext` reads nothing more and
      gives the same answer. */
  lemma HasNextIdempotent(r: Reader)
    ensures HasNext(HasNext(r).reader) == HasNext(r)
  {
  }

  /** `getTextClassificationOutcome`: the current index halved, as Java
      divides. The label is a decimal numeral `q` with `2 * q` within one of
      the index, on the side of zero. */
  function TextClassificationOutcome(r: Reader): (outcome: string)
    ensures IsDecimal(outcome)
    ensures r.currentIndex >= 0 ==> 2 * ParseDecimal(outcome) <= r.currentIndex <= 2 * ParseDecimal(outcome) + 1
    ensures r.currentIndex < 0 ==> 2 * ParseDecimal(outcome) - 1 <= r.currentIndex <= 2 * ParseDecimal(outcome)
    ensures outcome[0] == '0' ==> outcome == "0"
    ensures outcome[0] == '-' ==> outcome[1] != '0'
  {
    IntToString(Half(r.currentIndex))
  }

  /** `getNext`: fills in the document from the buffered line and the current
      index, then advances the index and empties the buffer. */
  function GetNext(r: Reader): (res: Fetched)
    ensures res.doc.text == r.nextLine
    ensures res.doc.language == r.language
    ensures res.doc.id == IntToString(r.currentIndex)
    ensures res.doc.title == res.doc.id && res.doc.collectionId == res.doc.id
    ensures res.doc.uri == r.sourceLocation
    ensures res.doc.outcome == IntToString(Half(r.currentIndex))
    ensures res.reader.currentIndex == Wrap(r.currentIndex + 1)
    ensures res.reader.nextLine.None? && res.reader.unread == r.unread
    ensures res.reader.sourceLocation == r.sourceLocation && res.reader.language == r.language
  {
    var index := IntToString(r.currentIndex);
    var doc := Document(r.nextLine, r.language, index, r.sourceLocation, index, index, TextClassificationOutcome(r));
    Fetched(r.(currentIndex := Increment(r.currentIndex), nextLine := None), doc)
  }

  /** `getNext` after a successful `hasNext` consumes exactly the first pending line. */
  lemma GetNextConsumesOneLine(r: Reader)
    requires HasNext(r).more
    ensures GetNext(HasNext(r).reader).doc.text == Some(Pending(r)[0])
    ensures Pending(GetNext(HasNext(r).reader).reader) == Pending(r)[1..]
  {
  }

  /** `getProgress`: completed and total are both the number of documents read. */
  function GetProgress(r: Reader): (p: Progress)
    ensures p.completed == p.total == r.currentIndex
    ensures p.unit == ENTITIES
  {
    Progress(r.currentIndex, r.currentIndex, ENTITIES)
  }

  /** Two consecutive documents share an outcome label, starting with
      documents 0 and 1, and documents of different pairs have different labels. */
  lemma OutcomesComeInPairs(r: Reader, k: nat, m: nat)
    requires 2 * k + 1 <= INT_MAX && 2 * m + 1 <= INT_MAX
    ensures TextClassificationOutcome(r.(currentIndex := 2 * k))
         == TextClassificationOutcome(r.(currentIndex := 2 * k + 1))
         == IntToString(k)
    ensures k != m ==>
      TextClassificationOutcome(r.(currentIndex := 2 * k)) != TextClassificationOutcome(r.(currentIndex := 2 * m))
  {
  }

  /** Document number `i` of a run over `line`s: its text is the line, its
      title, id and collection id are the index, its label the index halved
      (both on the wrapped 32-bit index), and it carries the reader's source
      location and language. */
  predicate IsDocument(d: Document, i: nat, line: string, sourceLocation: string, language: string) {
    && d.text == Some(line)
    && d.id == IntToString(Wrap(i))
    && d.title == d.id && d.collectionId == d.id
    && d.outcome == IntToString(Half(Wrap(i)))
    && d.uri == sourceLocation
    && d.language == Some(language)
  }

  /** One `getNext` on a buffered line, as the `k`-th call: it yields document
      `k` and leaves the index for document `k + 1`. */
  lemma ReadStep(r: Reader, k: nat)
    requires r.nextLine.Some? && r.language.Some? && r.currentIndex == Wrap(k)
    ensures IsDocument(GetNext(r).doc, k, r.nextLine.value, r.sourceLocation, r.language.value)
    ensures GetNext(r).reader.currentIndex == Wrap(k + 1)
  {
    WrapSucc(k);
  }

  /** The state of a run over `input` after `hasNext` has been asked and the
      documents `docs` have been read: the rest of the input is still pending,
      either buffered or exhausted, and every document read so far is the
      document of its line. */
  predicate ReadSoFar(r: Reader, docs: seq<Document>, input: seq<string>, sourceLocation: string, language: string) {
    && |docs| <= |input|
    && Pending(r) == input[|docs|..]
    && (r.nextLine.Some? || Pending(r) == [])
    && r.currentIndex == Wrap(|docs|)
    && r.sourceLocation == sourceLocation
    && r.language == Some(language)
    && forall i :: 0 <= i < |docs| ==> IsDocument(docs[i], i, input[i], sourceLocation, language)
  }

  /** A `getNext` followed by the next `hasNext` reads exactly one more document. */
  lemma {:induction false} ReadSoFarStep(r: Reader, docs: seq<Document>, input: seq<string>, sourceLocation: string, language: string)
    requires ReadSoFar(r, docs, input, sourceLocation, language) && r.nextLine.Some?
    ensures ReadSoFar(HasNext(GetNext(r).reader).reader, docs + [GetNext(r).doc], input, sourceLocation, language)
    ensures |Pending(HasNext(GetNext(r).reader).reader)| < |Pending(r)|
  {
    assert Pending(r) == [r.nextLine.value] + r.unread;
    assert r.nextLine.value == input[|docs|] && r.unread == input[|docs| + 1..];
    ReadStep(r, |docs|);
  }

  /** The framework's driving loop: `hasNext`, then `getNext` while there is a
      line. Exactly as many documents come out as there are lines, document
      `i` made from line `i`, and the reader ends exhausted. */
  method ReadToExhaustion(input: seq<string>, sourceLocation: string, languageParam: Option<string>)
    returns (docs: seq<Document>, last: Reader)
    ensures |docs| == |input|
    ensures forall i :: 0 <= i < |docs| ==>
      IsDocument(docs[i], i, input[i], sourceLocation, languageParam.GetOr(DEFAULT_LANGUAGE))
    ensures Pending(last) == [] && !HasNext(last).more
    ensures GetProgress(last) == Progress(Wrap(|input|), Wrap(|input|), ENTITIES)
    ensures |input| <= INT_MAX ==>
      && (forall i :: 0 <= i < |docs| ==> docs[i].id == IntToString(i) && docs[i].outcome == IntToString(i / 2))
      && GetProgress(last).completed == |input|
  {
    var language := languageParam.GetOr(DEFAULT_LANGUAGE);
    WrapInRange(0);
    docs := [];
    var step := HasNext(Initialize(input, sourceLocation, languageParam));
    var r := step.reader;
    var more := step.more;
    while more
      invariant more == r.nextLine.Some?
      invariant ReadSoFar(r, docs, input, sourceLocation, language)
      decreases |Pending(r)|
    {
      ReadSoFarStep(r, docs, input, sourceLocation, language);
      var next := GetNext(r);
      docs := docs + [next.doc];
      step := HasNext(next.reader);
      r := step.reader;
      more := step.more;
    }
    last := r;
    if |input| <= INT_MAX {
      WrapInRange(|input|);
      forall i | 0 <= i < |docs|
        ensures docs[i].id == IntToString(i) && docs[i].outcome == IntToString(i / 2)
      {
        DocumentWithoutWrapAround(docs[i], i, input[i], sourceLocation, language);
      }
    }
  }

  /** Below 2^31 the index does not wrap: document `i` has id `i` (and the
      same title and collection id) and label `i / 2`. */
  lemma DocumentWithoutWrapAround(d: Document, i: nat, line: string, sourceLocation: string, language: string)
    requires IsDocument(d, i, line, sourceLocation, language) && i <= INT_MAX
    ensures d.id == IntToString(i) && d.title == d.id && d.collectionId == d.id
    ensures d.outcome == IntToString(i / 2)
  {
    WrapInRange(i);
  }
}

=== FILE: meta_info_task.dfy ===
/** The meta-info task: it gives every meta collector's storage parameters a
    deterministic location, validates the collectors, and assembles the
    mode-level context collectors into one aggregate that is optionally fanned
    out over named views. It also chooses which input files feed the reader.

    Java reflection is replaced by tagged unions: a collector's or extractor's
    class is described by what `Class.forName`, `isAssignableFrom` and
    `newInstance` would find out about it. */
module MetaInfoTask {
  import opened JavaLang
  import TcFeatures

  /** Storage key of the folder the collectors write to. */
  const META_KEY: string := "meta"
  /** Storage key of the folder holding the serialized input documents. */
  const INPUT_KEY: string := "input"
  /** File extension of the serialized input documents. */
  const BIN_EXTENSION: string := "bin"
  /** The feature modes that activate a context collector. */
  const FM_UNIT: string := "unit"
  const FM_SEQUENCE: string := "sequence"

  datatype AccessMode = ReadOnly | ReadWrite

  /** A folder requested from the storage service. */
  datatype FolderRequest = FolderRequest(key: string, mode: AccessMode)

  /** What reflection finds out about a meta collector's implementation class. */
  datatype CollectorClass =
    | ClassNotFound
    | NotMetaCollector
    | NotInstantiable
    | MetaCollectorClass(parameterKeyPairs: map<string, string>)

  /** An analysis engine description of a meta collector; `parameters` are its
      configuration parameter settings. */
  datatype CollectorDescription = CollectorDescription(
    implementationName: string,
    isPrimitive: bool,
    implementation: CollectorClass,
    parameters: map<string, string>)

  /** What reflection finds out about a feature extractor's implementation class. */
  datatype ExtractorClass =
    | ExtractorClassNotFound
    | Independent
    | DependentNotInstantiable
    | MetaDependent(metaCollectorClasses: seq<CollectorDescription>)

  /** A resolved feature extractor: its descriptor (for the discriminator) and its class. */
  datatype FeatureExtractor = FeatureExtractor(feature: TcFeatures.TcFeature, implementation: ExtractorClass)

  datatype TaskError =
    | NoFeatureExtractors      // the extractor list is null
    | FeatureModeNull          // `featureMode.equals` on a null mode
    | CollectorNotPrimitive    // an aggregate collector description
    | NotAMetaCollector        // a collector class not inheriting from MetaCollector
    | ResolutionFailure        // a class that cannot be found or instantiated

  datatype Result<+T> = Ok(value: T) | Err(error: TaskError) {
    predicate IsFailure() {
      Err?
    }

    function PropagateFailure<U>(): Result<U>
      requires Err?
    {
      Err(error)
    }

    function Extract(): T
      requires Ok?
    {
      value
    }
  }

  /** The descriptions that creating an engine for the two built-in context
      collectors yields; their classes are not part of this model. */
  datatype ContextCollectors = ContextCollectors(
    unitContext: CollectorDescription,
    sequenceContext: CollectorDescription)

  /** The task's configuration. `None` stands for a null field. */
  datatype Task = Task(
    featureExtractors: Option<seq<FeatureExtractor>>,
    featureMode: Option<string>,
    operativeViews: Option<seq<string>>,
    filesRoot: Option<string>,
    filesTraining: Option<seq<string>>)

  /** One delegate of the aggregate; `Some(v)` maps the default sofa to view `v`. */
  datatype AggregateEntry = AggregateEntry(collector: CollectorDescription, view: Option<string>)

  /** The outcome of assembling the analysis engine: the folders requested from
      storage, the aggregate, and, per extractor, the collector descriptions
      that were bound to the extractor's namespace (these are configured but
      are not part of the aggregate). */
  datatype AnalysisEngine = AnalysisEngine(
    folderRequests: seq<FolderRequest>,
    aggregate: seq<AggregateEntry>,
    extractorBindings: seq<seq<CollectorDescription>>)

  /** The reader's input: every `.bin` file below a storage folder, or an explicit list. */
  datatype ReaderInput =
    | FilesUnderFolder(folder: FolderRequest, extension: string)
    | ListedFiles(files: seq<string>)

  // ---------------------------------------------------------------------------
  // Storage naming

  /** The storage location for a collector's preferred value: prefixed with the
      extractor's name and a dash when there is a name, unchanged otherwise. */
  function StorageLocation(extractorName: Option<string>, preferred: string): (loc: string)
    ensures extractorName.None? ==> loc == preferred
    ensures extractorName.Some? ==>
      && |loc| == |extractorName.value| + 1 + |preferred|
      && loc[..|extractorName.value|] == extractorName.value
      && loc[|extractorName.value|] == '-'
      && loc[|extractorName.value| + 1..] == preferred
  {
    match extractorName
    case None => preferred
    case Some(name) => name + "-" + preferred
  }

  /** For a fixed preferred value, the location determines the extractor name,
      the absent name included: a named location is longer than the unnamed one. */
  lemma StorageLocationInjective(a: Option<string>, b: Option<string>, preferred: string)
    ensures StorageLocation(a, preferred) == StorageLocation(b, preferred) <==> a == b
  {
    if StorageLocation(a, preferred) == StorageLocation(b, preferred) && a.Some? && b.Some? {
      var loc := StorageLocation(a, preferred);
      assert |a.value| == |b.value|;
      assert a.value == loc[..|a.value|] == b.value;
    }
  }

  /** Injectivity does not extend across different preferred values: an
      extractor name that contains a dash can meet another extractor's
      location, and a named location can meet an unnamed one. */
  lemma StorageLocationsMeetAcrossPreferredValues()
    ensures StorageLocation(Some("ngram-1"), "vocab") == StorageLocation(Some("ngram"), "1-vocab")
    ensures StorageLocation(Some("A"), "vocab") == StorageLocation(None, "A-vocab")
  {
  }

  /** The meta-collector parameters a configured description must carry. */
  predicate StorageBound(before: CollectorDescription, extractorName: Option<string>, after: CollectorDescription)
    requires before.implementation.MetaCollectorClass?
  {
    var pairs := before.implementation.parameterKeyPairs;
    && after.(parameters := before.parameters) == before
    && after.parameters.Keys == before.parameters.Keys + pairs.Keys
    && (forall k :: k in pairs ==> after.parameters[k] == StorageLocation(extractorName, pairs[k]))
    && (forall k :: k in before.parameters && k !in pairs ==> after.parameters[k] == before.parameters[k])
  }

  /** Whether configuring this description succeeds: it must be primitive and
      its class must be an instantiable meta collector. */
  predicate Configurable(desc: CollectorDescription) {
    desc.isPrimitive && desc.implementation.MetaCollectorClass?
  }

  /** `configureStorageLocations`: validates the description and binds each
      storage parameter the collector declares, and nothing else. */
  function ConfigureStorageLocations(desc: CollectorDescription, extractorName: Option<string>): (r: Result<CollectorDescription>)
    ensures r.Ok? <==> Configurable(desc)
    ensures r.Ok? ==> StorageBound(desc, extractorName, r.value)
    ensures !desc.isPrimitive ==> r == Err(CollectorNotPrimitive)
    ensures desc.isPrimitive && desc.implementation.NotMetaCollector? ==> r == Err(NotAMetaCollector)
    ensures desc.isPrimitive && (desc.implementation.ClassNotFound? || desc.implementation.NotInstantiable?) ==>
      r == Err(ResolutionFailure)
  {
    if !desc.isPrimitive then
      Err(CollectorNotPrimitive)
    else
      match desc.implementation
      case ClassNotFound => Err(ResolutionFailure)
      case NotMetaCollector => Err(NotAMetaCollector)
      case NotInstantiable => Err(ResolutionFailure)
      case MetaCollectorClass(pairs) =>
        Ok(desc.(parameters := desc.parameters + map k | k in pairs :: StorageLocation(extractorName, pairs[k])))
  }

  // ---------------------------------------------------------------------------
  // Collector list

  /** Configures a list of descriptions in order; the first failure is the result. */
  function ConfigureAll(descs: seq<CollectorDescription>, extractorName: Option<string>): (r: Result<seq<CollectorDescription>>)
    ensures r.Ok? <==> forall i :: 0 <= i < |descs| ==> Configurable(descs[i])
    ensures r.Ok? ==>
      && |r.value| == |descs|
      && forall i :: 0 <= i < |descs| ==> StorageBound(descs[i], extractorName, r.value[i])
    ensures r.Err? ==> exists i :: (0 <= i < |descs|
      && (forall k :: 0 <= k < i ==> Configurable(descs[k]))
      && ConfigureStorageLocations(descs[i], extractorName) == Err(r.error))
    decreases |descs|
  {
    if descs == [] then
      Ok([])
    else
      var first :- ConfigureStorageLocations(descs[0], extractorName);
      var rest :- ConfigureAll(descs[1..], extractorName);
      Ok([first] + rest)
  }

  /** The collectors an extractor declares (none unless it is meta-dependent). */
  function DeclaredCollectors(fe: FeatureExtractor): seq<CollectorDescription> {
    if fe.implementation.MetaDependent? then fe.implementation.metaCollectorClasses else []
  }

  /** Whether an extractor's class can be found and, if it is meta-dependent, instantiated. */
  predicate Resolvable(fe: FeatureExtractor) {
    fe.implementation.Independent? || fe.implementation.MetaDependent?
  }

  /** One iteration of the loop over extractors: extractors that are not
      meta-dependent are skipped; the collectors of a meta-dependent one are
      bound under the extractor's discriminator value. */
  function ConfigureExtractor(fe: FeatureExtractor): (r: Result<seq<CollectorDescription>>)
    ensures r.Ok? <==> Resolvable(fe) && forall i :: 0 <= i < |DeclaredCollectors(fe)| ==> Configurable(DeclaredCollectors(fe)[i])
    ensures r.Ok? ==>
      && |r.value| == |DeclaredCollectors(fe)|
      && forall i :: 0 <= i < |r.value| ==>
           StorageBound(DeclaredCollectors(fe)[i], fe.feature.DiscriminatorValue(), r.value[i])
    ensures fe.implementation.Independent? ==> r == Ok([])
    ensures !Resolvable(fe) ==> r == Err(ResolutionFailure)
    ensures r.Err? && Resolvable(fe) ==> exists i :: (0 <= i < |DeclaredCollectors(fe)|
      && (forall k :: 0 <= k < i ==> Configurable(DeclaredCollectors(fe)[k]))
      && ConfigureStorageLocations(DeclaredCollectors(fe)[i], fe.feature.DiscriminatorValue()) == Err(r.error))
  {
    match fe.implementation
    case ExtractorClassNotFound => Err(ResolutionFailure)
    case Independent => Ok([])
    case DependentNotInstantiable => Err(ResolutionFailure)
    case MetaDependent(descs) =>
      assert DeclaredCollectors(fe) == descs;
      ConfigureAll(descs, fe.feature.DiscriminatorValue())
  }

  /** The loop over all extractors, in order; the first failure is the result. */
  function ConfigureExtractors(fes: seq<FeatureExtractor>): (r: Result<seq<seq<CollectorDescription>>>)
    ensures r.Ok? <==> forall i :: 0 <= i < |fes| ==> ConfigureExtractor(fes[i]).Ok?
    ensures r.Ok? ==>
      && |r.value| == |fes|
      && forall i :: 0 <= i < |fes| ==> ConfigureExtractor(fes[i]) == Ok(r.value[i])
    ensures r.Err? ==> exists i :: (0 <= i < |fes|
      && (forall k :: 0 <= k < i ==> ConfigureExtractor(fes[k]).Ok?)
      && ConfigureExtractor(fes[i]) == Err(r.error))
    decreases |fes|
  {
    if fes == [] then
      Ok([])
    else
      var first :- ConfigureExtractor(fes[0]);
      var rest :- ConfigureExtractors(fes[1..]);
      Ok([first] + rest)
  }

  /** The context collectors the feature mode activates, bound with no
      extractor name: the unit-context collector in unit mode, the
      sequence-context collector in sequence mode, none otherwise. */
  function ModeCollectors(mode: string, ctx: ContextCollectors): (r: Result<seq<CollectorDescription>>)
    ensures r.Ok? ==> |r.value| <= 1
    ensures mode == FM_UNIT ==>
      (r.Ok? <==> Configurable(ctx.unitContext))
      && (r.Ok? ==> |r.value| == 1 && StorageBound(ctx.unitContext, None, r.value[0]))
    ensures mode == FM_SEQUENCE ==>
      (r.Ok? <==> Configurable(ctx.sequenceContext))
      && (r.Ok? ==> |r.value| == 1 && StorageBound(ctx.sequenceContext, None, r.value[0]))
    ensures mode != FM_UNIT && mode != FM_SEQUENCE ==> r == Ok([])
    ensures mode == FM_UNIT && r.Err? ==> ConfigureStorageLocations(ctx.unitContext, None) == Err(r.error)
    ensures mode == FM_SEQUENCE && r.Err? ==> ConfigureStorageLocations(ctx.sequenceContext, None) == Err(r.error)
  {
    var unit :- if mode == FM_UNIT then Single(ConfigureStorageLocations(ctx.unitContext, None)) else Ok([]);
    var sequence :- if mode == FM_SEQUENCE then Single(ConfigureStorageLocations(ctx.sequenceContext, None)) else Ok([]);
    Ok(unit + sequence)
  }

  function Single(r: Result<CollectorDescription>): Result<seq<CollectorDescription>> {
    match r
    case Ok(d) => Ok([d])
    case Err(e) => Err(e)
  }

  // ---------------------------------------------------------------------------
  // Aggregate

  /** The delegates one collector contributes: one per operative view, or a
      single one on the default view when no views are set. */
  function Attach(c: CollectorDescription, views: Option<seq<string>>): (r: seq<AggregateEntry>)
    ensures views.None? ==> r == [AggregateEntry(c, None)]
    ensures views.Some? ==>
      && |r| == |views.value|
      && forall j :: 0 <= j < |r| ==> r[j] == AggregateEntry(c, Some(views.value[j]))
  {
    match views
    case None => [AggregateEntry(c, None)]
    case Some(vs) => seq(|vs|, j requires 0 <= j < |vs| => AggregateEntry(c, Some(vs[j])))
  }

  /** The aggregate over a collector list: collector-major, views inner. */
  function Aggregate(collectors: seq<CollectorDescription>, views: Option<seq<string>>): (r: seq<AggregateEntry>)
    ensures views.None? ==> |r| == |collectors|
    ensures views.Some? ==> |r| == |collectors| * |views.value|
    decreases |collectors|
  {
    if collectors == [] then
      []
    else
      var r := Attach(collectors[0], views) + Aggregate(collectors[1..], views);
      assert views.Some? ==> |r| == |views.value| + (|collectors| - 1) * |views.value|;
      r
  }

  /** Without views, each collector is added exactly once, in list order. */
  lemma {:induction false} AggregateWithoutViews(collectors: seq<CollectorDescription>)
    ensures forall i :: 0 <= i < |collectors| ==> Aggregate(collectors, None)[i] == AggregateEntry(collectors[i], None)
    decreases |collectors|
  {
    if collectors != [] {
      AggregateWithoutViews(collectors[1..]);
    }
  }

  /** With views, entry `i * |views| + j` is collector `i` on view `j`. */
  lemma {:induction false} AggregateWithViews(collectors: seq<CollectorDescription>, views: seq<string>, i: nat, j: nat)
    requires i < |collectors| && j < |views|
    ensures i * |views| + j < |Aggregate(collectors, Some(views))|
    ensures Aggregate(collectors, Some(views))[i * |views| + j] == AggregateEntry(collectors[i], Some(views[j]))
    decreases i
  {
    var n := |views|;
    var head := Attach(collectors[0], Some(views));
    var tail := Aggregate(collectors[1..], Some(views));
    assert Aggregate(collectors, Some(views)) == head + tail;
    if i > 0 {
      AggregateWithViews(collectors[1..], views, i - 1, j);
      assert (i - 1) * n + j == i * n + j - n;
    }
  }

  // ---------------------------------------------------------------------------
  // The task's operations

  /** `getAnalysisEngineDescription`. */
  function AnalysisEngineDescription(task: Task, ctx: ContextCollectors): (r: Result<AnalysisEngine>)
    ensures task.featureExtractors.None? ==> r == Err(NoFeatureExtractors)
    ensures task.featureExtractors.Some? && task.featureMode.None? ==> r == Err(FeatureModeNull)
    ensures task.featureExtractors.Some? && task.featureMode.Some? && ModeCollectors(task.featureMode.value, ctx).Err? ==>
      r == Err(ModeCollectors(task.featureMode.value, ctx).error)
    ensures r.Err? && task.featureExtractors.Some? && task.featureMode.Some? && ModeCollectors(task.featureMode.value, ctx).Ok? ==>
      ConfigureExtractors(task.featureExtractors.value) == Err(r.error)
    ensures r.Ok? <==>
      && task.featureExtractors.Some?
      && task.featureMode.Some?
      && ModeCollectors(task.featureMode.value, ctx).Ok?
      && forall i :: 0 <= i < |task.featureExtractors.value| ==> ConfigureExtractor(task.featureExtractors.value[i]).Ok?
    ensures r.Ok? ==>
      && task.featureExtractors.Some?
      && r.value.folderRequests == [FolderRequest(META_KEY, ReadOnly)]
      && |r.value.extractorBindings| == |task.featureExtractors.value|
      && (forall i :: 0 <= i < |task.featureExtractors.value| ==>
            ConfigureExtractor(task.featureExtractors.value[i]) == Ok(r.value.extractorBindings[i]))
  {
    if task.featureExtractors.None? then
      Err(NoFeatureExtractors)
    else if task.featureMode.None? then
      Err(FeatureModeNull)
    else
      var contextCollectors :- ModeCollectors(task.featureMode.value, ctx);
      var bindings :- ConfigureExtractors(task.featureExtractors.value);
      Ok(AnalysisEngine(
        [FolderRequest(META_KEY, ReadOnly)],
        Aggregate(contextCollectors, task.operativeViews),
        bindings))
  }

  /** `setOperativeViews`: replaces the views and nothing else. */
  function SetOperativeViews(task: Task, views: Option<seq<string>>): (r: Task)
    ensures r.operativeViews == views
    ensures r.(operativeViews := task.operativeViews) == task
  {
    task.(operativeViews := views)
  }

  /** `getCollectionReaderDescription`: the training files when both the root
      and the file list are set, otherwise every `.bin` file under the input
      folder, which is requested read-only. */
  function CollectionReaderInput(task: Task): (r: ReaderInput)
    ensures r.FilesUnderFolder? <==> task.filesRoot.None? || task.filesTraining.None?
    ensures r.FilesUnderFolder? ==> r == FilesUnderFolder(FolderRequest(INPUT_KEY, ReadOnly), BIN_EXTENSION)
    ensures r.ListedFiles? ==> r.files == task.filesTraining.value
  {
    if task.filesRoot.None? || task.filesTraining.None? then
      FilesUnderFolder(FolderRequest(INPUT_KEY, ReadOnly), BIN_EXTENSION)
    else
      ListedFiles(task.filesTraining.value)
  }

  // ---------------------------------------------------------------------------
  // Properties of the assembly

  /** The aggregate holds only the context collectors the mode activates:
      exactly one unit-context collector bound with no extractor name in unit
      mode, exactly one sequence-context collector in sequence mode, and none
      in any other mode, whatever the extractors declare. */
  lemma ModeGatesAggregate(task: Task, ctx: ContextCollectors)
    requires AnalysisEngineDescription(task, ctx).Ok?
    ensures task.featureMode.Some?
    ensures var agg := AnalysisEngineDescription(task, ctx).value.aggregate;
      && (task.featureMode.value != FM_UNIT && task.featureMode.value != FM_SEQUENCE ==> agg == [])
      && (task.featureMode.value == FM_UNIT && task.operativeViews.None? ==>
            |agg| == 1 && agg[0].view.None? && StorageBound(ctx.unitContext, None, agg[0].collector))
      && (task.featureMode.value == FM_SEQUENCE && task.operativeViews.None? ==>
            |agg| == 1 && agg[0].view.None? && StorageBound(ctx.sequenceContext, None, agg[0].collector))
  {
    var cs := ModeCollectors(task.featureMode.value, ctx).value;
    assert AnalysisEngineDescription(task, ctx).value.aggregate == Aggregate(cs, task.operativeViews);
    AggregateWithoutViews(cs);
  }

  /** Collectors declared by meta-dependent extractors never reach the
      aggregate: two tasks that differ only in their extractors build the same
      aggregate whenever both succeed. */
  lemma AggregateIgnoresExtractors(task: Task, extractors: seq<FeatureExtractor>, ctx: ContextCollectors)
    requires AnalysisEngineDescription(task, ctx).Ok?
    requires AnalysisEngineDescription(task.(featureExtractors := Some(extractors)), ctx).Ok?
    ensures AnalysisEngineDescription(task.(featureExtractors := Some(extractors)), ctx).value.aggregate
         == AnalysisEngineDescription(task, ctx).value.aggregate
  {
  }

  /** Only a null extractor list is rejected: an empty list builds an engine
      whenever the mode is set and its context collector is valid. */
  lemma EmptyExtractorListAccepted(task: Task, ctx: ContextCollectors)
    requires task.featureExtractors == Some([]) && task.featureMode.Some?
    requires ModeCollectors(task.featureMode.value, ctx).Ok?
    ensures AnalysisEngineDescription(task, ctx).Ok?
    ensures AnalysisEngineDescription(task, ctx).value.extractorBindings == []
  {
  }

  /** One invalid collector declared by a meta-dependent extractor fails the
      whole assembly, however many valid collectors and extractors surround it. */
  lemma InvalidDeclaredCollectorFails(task: Task, ctx: ContextCollectors, i: nat, j: nat)
    requires task.featureExtractors.Some? && i < |task.featureExtractors.value|
    requires j < |DeclaredCollectors(task.featureExtractors.value[i])|
    requires !Configurable(DeclaredCollectors(task.featureExtractors.value[i])[j])
    ensures AnalysisEngineDescription(task, ctx).Err?
  {
    var fes := task.featureExtractors.value;
    assert !ConfigureExtractor(fes[i]).Ok?;
  }

  /** An unresolvable extractor class fails the assembly. */
  lemma UnresolvableExtractorFails(task: Task, ctx: ContextCollectors, i: nat)
    requires task.featureExtractors.Some? && i < |task.featureExtractors.value|
    requires !Resolvable(task.featureExtractors.value[i])
    ensures AnalysisEngineDescription(task, ctx).Err?
  {
    assert !ConfigureExtractor(task.featureExtractors.value[i]).Ok?;
  }

  /** With views set, each context collector is attached once per view,
      collector-major; without views, once each, in order. */
  lemma {:induction false} OperativeViewsFanOut(task: Task, ctx: ContextCollectors, views: seq<string>)
    requires AnalysisEngineDescription(SetOperativeViews(task, Some(views)), ctx).Ok?
    ensures task.featureMode.Some? && ModeCollectors(task.featureMode.value, ctx).Ok?
    ensures var cs := ModeCollectors(task.featureMode.value, ctx).value;
      var agg := AnalysisEngineDescription(SetOperativeViews(task, Some(views)), ctx).value.aggregate;
      && |agg| == |cs| * |views|
      && forall i, j :: 0 <= i < |cs| && 0 <= j < |views| ==>
           i * |views| + j < |agg| && agg[i * |views| + j] == AggregateEntry(cs[i], Some(views[j]))
  {
    var t := SetOperativeViews(task, Some(views));
    var cs := ModeCollectors(task.featureMode.value, ctx).value;
    assert AnalysisEngineDescription(t, ctx).value.aggregate == Aggregate(cs, Some(views));
    forall i, j | 0 <= i < |cs| && 0 <= j < |views|
      ensures i * |views| + j < |Aggregate(cs, Some(views))|
      ensures Aggregate(cs, Some(views))[i * |views| + j] == AggregateEntry(cs[i], Some(views[j]))
    {
      AggregateWithViews(cs, views, i, j);
    }
  }

  /** The descriptor's configuration plays no part in naming: replacing an
      extractor's config leaves the bound storage locations unchanged. */
  lemma ConfigDoesNotAffectBindings(fe: FeatureExtractor, config: TcFeatures.Config)
    ensures ConfigureExtractor(fe.(feature := TcFeatures.SetConfig(fe.feature, config))) == ConfigureExtractor(fe)
  {
  }

  /** The reader only asks whether the root is set; its value is never used. */
  lemma ReaderIgnoresFilesRoot(task: Task, root: string)
    requires task.filesRoot.Some?
    ensures CollectionReaderInput(task.(filesRoot := Some(root))) == CollectionReaderInput(task)
  {
  }

  /** Two extractors `A` and `B` in document mode, where only `A` declares a
      collector with preferred value `vocab`: the collector is bound to
      `A-vocab`, `B` binds nothing, and the aggregate is empty. */
  lemma DocumentModeScenario(ctx: ContextCollectors)
    ensures
      var vocab := CollectorDescription("Vocab", true, MetaCollectorClass(map["target" := "vocab"]), map[]);
      var a := FeatureExtractor(TcFeatures.NewFeature(Some("A"), Some("A")), MetaDependent([vocab]));
      var b := FeatureExtractor(TcFeatures.NewFeature(Some("B"), Some("B")), Independent);
      AnalysisEngineDescription(Task(Some([a, b]), Some("document"), None, None, None), ctx) ==
        Ok(AnalysisEngine([FolderRequest(META_KEY, ReadOnly)], [], [[vocab.(parameters := map["target" := "A-vocab"])], []]))
  {
    var pairs := map["target" := "vocab"];
    var vocab := CollectorDescription("Vocab", true, MetaCollectorClass(pairs), map[]);
    var bound := vocab.(parameters := map["target" := "A-vocab"]);
    var located := map k | k in pairs :: StorageLocation(Some("A"), pairs[k]);
    assert located.Keys == {"target"};
    assert located["target"] == "A-vocab";
    assert map[] + located == map["target" := "A-vocab"];
    assert ConfigureStorageLocations(vocab, Some("A")) == Ok(bound);
    assert [vocab][1..] == [];
    assert ConfigureAll([], Some("A")) == Ok([]);
    assert [bound] + [] == [bound];
    assert ConfigureAll([vocab], Some("A")) == Ok([bound]);
    var a := FeatureExtractor(TcFeatures.NewFeature(Some("A"), Some("A")), MetaDependent([vocab]));
    var b := FeatureExtractor(TcFeatures.NewFeature(Some("B"), Some("B")), Independent);
    assert [a, b][1..] == [b] && [b][1..] == [];
    assert ConfigureExtractor(a) == Ok([bound]);
    assert ConfigureExtractors([]) == Ok([]);
    var none: seq<CollectorDescription> := [];
    var noBindings: seq<seq<CollectorDescription>> := [];
    assert ConfigureExtractor(b) == Ok(none);
    assert [none] + noBindings == [none];
    assert ConfigureExtractors([b]) == Ok([none]);
    assert [[bound]] + [none] == [[bound], none];
    assert ConfigureExtractors([a, b]) == Ok([[bound], []]);
  }
}

=== FILE: tc_feature.dfy ===
/** A feature descriptor: a feature extractor's identity (its discriminator
    name and its full feature name) together with a replaceable configuration. */
module TcFeatures {
  import opened JavaLang

  /** A configuration value. The source keeps `Object`s; the model keeps
      their textual rendering, which is all identity reasoning needs. */
  type ConfigValue = string

  /** The configuration map, `None` while it has never been set. */
  type Config = Option<map<string, ConfigValue>>

  datatype TcFeature = TcFeature(
    name: Option<string>,
    fullFeatureName: Option<string>,
    config: Config)
  {
    /** The discriminator value; it becomes the storage-name prefix of the
        meta collectors the feature depends on. */
    function DiscriminatorValue(): Option<string> {
      name
    }

    function FeatureName(): Option<string> {
      fullFeatureName
    }
  }

  /** The constructor: records the two identity strings; no config yet. */
  function NewFeature(aName: Option<string>, fullFeatureName: Option<string>): (f: TcFeature)
    ensures f.DiscriminatorValue() == aName
    ensures f.FeatureName() == fullFeatureName
    ensures f.config.None?
  {
    TcFeature(aName, fullFeatureName, None)
  }

  /** `setConfig`: the new config replaces the old one; identity is untouched. */
  function SetConfig(f: TcFeature, aConfig: Config): (r: TcFeature)
    ensures r.config == aConfig
    ensures r.DiscriminatorValue() == f.DiscriminatorValue()
    ensures r.FeatureName() == f.FeatureName()
  {
    f.(config := aConfig)
  }

  /** A feature after a sequence of `setConfig` calls, applied in order. */
  function SetConfigs(f: TcFeature, configs: seq<Config>): TcFeature
    decreases |configs|
  {
    if configs == [] then f else SetConfigs(SetConfig(f, configs[0]), configs[1..])
  }

  /** Identity is fixed for the object's lifetime: whatever configurations are
      set after construction, the discriminator value and the feature name stay
      those passed to the constructor, and the config is the last one set. */
  lemma {:induction false} IdentityFixedForLifetime(f: TcFeature, configs: seq<Config>)
    ensures SetConfigs(f, configs).DiscriminatorValue() == f.DiscriminatorValue()
    ensures SetConfigs(f, configs).FeatureName() == f.FeatureName()
    ensures configs != [] ==> SetConfigs(f, configs).config == configs[|configs| - 1]
    ensures configs == [] ==> SetConfigs(f, configs) == f
    decreases |configs|
  {
    if configs != [] {
      IdentityFixedForLifetime(SetConfig(f, configs[0]), configs[1..]);
    }
  }

  /** From construction on, no sequence of `setConfig` calls changes the
      constructor's name or full feature name. */
  lemma ConstructedIdentityFixed(aName: Option<string>, fullFeatureName: Option<string>, configs: seq<Config>)
    ensures SetConfigs(NewFeature(aName, fullFeatureName), configs).DiscriminatorValue() == aName
    ensures SetConfigs(NewFeature(aName, fullFeatureName), configs).FeatureName() == fullFeatureName
  {
    IdentityFixedForLifetime(NewFeature(aName, fullFeatureName), configs);
  }
}
